=== FILE: README.md ===
# Language translator GUI: the sequential core in Dafny

This project models the parts of the Tkinter language translator (`main.py`) that hold state and can be reasoned about without a window system. It covers:

- **Particle background** (`ParticleCanvas`). The population is clamped to [5, 150]. It grows by appending particles at random positions and shrinks by popping from the end, deleting each popped particle's canvas item. On resize the particles are scattered over the viewport.
- **Translation history**. Each record holds previews truncated to 120 characters plus "…". The history keeps only the 10 newest records, as `deque(maxlen=10)` does.
- **Language dropdowns**. Choosing a header row restores the side's last accepted choice. The target never accepts "Auto Detect". Swapping is refused while the source is "Auto Detect".
- **Smaller pieces**. These are the theme toggle, the construction of the dropdown entries, and the auto-translate debounce timer.

Each piece is a module of immutable datatypes and pure functions:

| file | module | source |
|---|---|---|
| particles.dfy | `Particles` | `ParticleCanvas` |
| history.dfy | `History` | `_record_history` and the history deque |
| selection.dfy | `LanguageSelection` | `_handle_combo_selection`, `swap_languages` |
| language_values.dfy | `LanguageValues` | `_build_language_values` |
| theme.dfy | `Theme` | `toggle_theme` |
| debounce.dfy | `Debounce` | `_on_input_change` and `typing_job` in `translate` |

How the environment is abstracted:

- **Canvas.** The Tk canvas is the set of live item ids plus the id that the next `create_oval` returns. Drawing calls do not appear in the model.
- **Randomness.** Every `random.*` draw is a caller-supplied stream. A stream is a total function from the draw number to the drawn value. Preconditions give the ranges `_create_particle` and `randint` draw from: size in [6, 50], dx in [-1.5, 1.5], dy in [0.3, 1.6], colour one of the five neon colours, position in [0, width] x [0, height].
- **Numbers.** Positions and velocities are `real`; velocities are Python floats, positions are ints until `_animate` moves them. `winfo_width() or 1` is `ScreenExtent`, which turns 0 into 1.
- **Timers.** The Tk timer queue is the set of pending auto-translate timer ids.

## Model

| member | source | states |
|---|---|---|
| Particles.Clamp | main.py:96 | the particle count is 5 below the range, 150 above it, and unchanged inside [5, 150] |
| Particles.ScreenExtent | main.py:101-102 | a reported size of 0 becomes 1 and any other size is kept |
| Particles.CreateParticle | main.py:38-49 | the new particle sits at the origin with the drawn traits, and its canvas item id was never used before |
| Particles.Grow | main.py:99-107 | the growing loop reaches the target length, keeps the old list as an unchanged prefix, and gives each new particle the next draw and the next consecutive canvas id |
| Particles.GrowLive | main.py:99-107 | growing adds to the canvas exactly the items of the appended particles |
| Particles.Shrink | main.py:108-111 | the popping loop leaves the first `count` particles and deletes exactly the canvas items of the popped ones |
| Particles.SetParticleCount | main.py:94-111 | afterwards the desired count and the list length both equal the clamped count |
| Particles.SetParticleCountGrows | main.py:99-107 | growing keeps the old particles as a prefix; each new particle lies in [0, width] x [0, height] with traits in range and a fresh id; the canvas gains exactly those ids |
| Particles.SetParticleCountShrinks | main.py:108-111 | shrinking leaves a prefix of the old list, and exactly the removed particles' items are deleted from the canvas |
| Particles.SetParticleCountPreservesWf | main.py:94-111 | the canvas keeps holding exactly one distinct item per particle, and every particle's traits stay in range |
| Particles.SetParticleCountIdempotent | main.py:96-111 | a second call with the same count creates and deletes nothing, whatever the draws and window size |
| Particles.SetParticleCountReleases | main.py:108-111 | shrinking releases exactly one canvas item per popped particle and keeps the others |
| Particles.FortyThenTen | main.py:94-111 | setting 40 and then 10 leaves 10 particles and releases exactly 30 canvas items |
| Particles.Scatter | main.py:59-65 | nothing changes when width or height is at most 1; otherwise every particle moves into [0, width] x [0, height] and keeps its velocity, size, colour and id |
| Particles.ScatterPreservesWf | main.py:59-65 | scattering keeps the one-item-per-particle invariant |
| Particles.Reseed | main.py:54-57 | after a reseed the population and the desired count equal the clamped stored desired count |
| Particles.ReseedRandomizes | main.py:54-65 | when the widget has a size, every particle after a reseed lies in [0, width] x [0, height], and the particles that survive the rebalance keep their velocity, size, colour and canvas item |
| Particles.ReseedPreservesWf | main.py:54-57 | reseeding keeps the one-item-per-particle invariant |
| Particles.NewField | main.py:31-34 | the constructor stores the desired count unclamped and creates that many particles at the origin from the draws |
| Particles.NewFieldWf | main.py:31-34 | a freshly built particle layer satisfies the one-item-per-particle invariant |
| History.Preview | main.py:631-632 | text of at most 120 characters is kept whole; longer text becomes its first 120 characters followed by "…" |
| History.PreviewIdempotent | main.py:631-632 | truncating a preview again does not change it |
| History.Push | main.py:633 | the new entry goes last; below 10 entries nothing is lost; at 10 the oldest entry is evicted |
| History.Record | main.py:630-633 | a record holds both previews and the two language labels, appended after the kept older entries |
| History.PushAllKeepsNewest | main.py:134 | after any run of records the history is exactly the 10 newest entries, in recording order |
| LanguageSelection.HandleComboSelection | main.py:509-525 | a header restores the side's last choice; "Auto Detect" on the target restores the target's last choice; any other value becomes that side's last choice; the other side is untouched |
| LanguageSelection.Pick | main.py:197-226 | after a pick the combobox shows the picked value, or the side's last choice when the value was refused; an accepted value becomes the side's last choice and a refused one leaves it as it was; the other side is unchanged |
| LanguageSelection.Swap | main.py:410-416 | refused exactly when the source is "Auto Detect"; otherwise source and target are exchanged and the last choices are kept |
| LanguageSelection.InitialValid | main.py:143-147 | the start-up selection shows no header and has no "Auto Detect" target |
| LanguageSelection.PickPreservesValid | main.py:509-525 | no pick ever leaves a header shown or remembered, or "Auto Detect" as the target |
| LanguageSelection.SwapPreservesValid | main.py:410-416 | a swap never makes the target "Auto Detect" |
| LanguageSelection.SwapInvolution | main.py:410-416 | in a valid state, swapping twice restores the original pair, and the second swap is never refused |
| LanguageValues.KeepIn | main.py:650 | the popular filter is never longer than its input, and everything it keeps is a popular name the language table knows; its order is stated by `LanguageValues.PopularSection`, `LanguageValues.KeepInAll` and `LanguageValues.PopularInOrder` |
| LanguageValues.KeepInAll | main.py:650 | the popular filter keeps a list whose every entry is known whole, in its original order |
| LanguageValues.PopularSection | main.py:650 | for any language table, the Popular section is the known names among English, Hindi, Spanish, French, German, in that order |
| LanguageValues.PopularInOrder | main.py:650 | when the language table knows all five names of `POPULAR_LANGUAGES`, the Popular section is English, Hindi, Spanish, French, German in that order |
| LanguageValues.KeepOut | main.py:651 | the "others" filter is never longer than its input, and everything it keeps is a table name that is not popular |
| LanguageValues.KeepInCount | main.py:650 | the popular filter keeps every occurrence of a known name and drops unknown ones |
| LanguageValues.KeepOutCount | main.py:651 | the "others" filter drops the popular names and keeps every occurrence of the rest |
| LanguageValues.BuildLanguageValues | main.py:649-652 | the list is the Popular header, the known popular names in their fixed order, the All Languages header, then exactly the other table names in table order |
| LanguageValues.KeepOutSorted | main.py:651 | filtering a sorted list leaves it sorted: the kept names keep their relative order |
| LanguageValues.OthersSorted | main.py:19-21 | the names under the All Languages header come out in sorted order |
| LanguageValues.EachNameOnce | main.py:649-652 | every language name appears exactly once in the dropdown, and no other non-header value appears |
| LanguageValues.OnlyHeadersAndNames | main.py:649-652 | every entry is one of the two headers or a language name |
| Theme.ToggleTheme | main.py:607-611 | the new index is always a valid theme index and differs from the old one; the palette is dark exactly for index 0 |
| Theme.ToggleTwiceRestores | main.py:607-608 | two presses return to the starting theme |
| Theme.PressesAlternate | main.py:607-608 | starting from index 0, n presses give index n mod 2 |
| Debounce.OnInputChange | main.py:527-531 | the remembered timer is cancelled and a new, never-used timer is scheduled and remembered |
| Debounce.KeystrokeLeavesOnePending | main.py:527-531 | after a keystroke exactly one auto-translate is pending: the one just scheduled |
| Debounce.TranslateAsWritten | main.py:418-433 | with empty input nothing changes; otherwise the remembered timer is forgotten but stays pending |
| Debounce.StepAsWritten | main.py:418-433 | with the code as written, a keystroke (`_on_input_change`, main.py:527-531) replaces the remembered timer by a new one; a manual translate with text forgets the remembered timer and leaves every pending timer queued; a firing timer leaves the queue; timer ids stay fresh |
| Debounce.TwoPendingAsWritten | main.py:433 | keystroke, Translate, keystroke leaves two auto-translate timers pending with the code as written |
| Debounce.Translate | main.py:418-433 | corrected: with text present, the remembered timer is cancelled as well as forgotten |
| Debounce.Step | main.py:527-531 | with the corrected `translate`: every event keeps the debounce invariant: any pending timer is the remembered one |
| Debounce.InitialInv | main.py:140 | at start-up no timer is remembered or pending, so the debounce invariant holds |
| Debounce.RunKeepsAtMostOnePending | main.py:527-531 | with the corrected `translate`: any run of events from a valid state leaves at most one auto-translate pending |
| Debounce.OnePendingCorrected | main.py:433 | with the corrected `translate`, the same three events leave one timer pending |

## Findings

| source | as written | input that shows it | evidently intended | confidence | as-written member | corrected member |
|---|---|---|---|---|---|---|
| main.py:433 | `translate` sets `typing_job = None` without calling `after_cancel` on the timer it remembered | type a key, then press Translate and type another key, both within 650 ms of the first key: both the first and the second auto-translate timers are pending, so two more translation requests follow | forgetting the debounce timer also cancels it, so at most one auto-translate is ever pending | medium, not executed | Debounce.TwoPendingAsWritten | Debounce.RunKeepsAtMostOnePending |

`Debounce.Step` and `Debounce.Run` use the corrected `Debounce.Translate`. `Debounce.StepAsWritten` keeps the behaviour as written so the discrepancy can be exhibited.

## Left out

- `_animate` (main.py:77-92) is left out. It updates float positions and reschedules itself forever with `after`. The code never clamps x after a bounce, so no bound on x is claimed.
- Canvas drawing (`_draw_particle`, `coords`, `itemconfig`, `create_oval` geometry) is left out: it only changes what is shown. The canvas is reduced to its set of live item ids.
- `_handle_resize` is not a separate member. It only forwards the event's width and height to `Particles.Scatter`.
- `random.*` calls are not modelled. They are caller-supplied streams whose ranges are preconditions.
- `translate` is modelled only for its effect on `typing_job`. Language-code lookup, the worker thread, `_translate_worker` and `_apply_translation` are left out. They depend on the googletrans library and on threads. `_apply_translation` contributes only the call to `_record_history`, which is `History.Record`.
- Speech is left out: `speak_translation`, `_speak_worker`, `stop_speaking` and `_apply_tts_preferences`. They drive the pyttsx3 engine from a thread.
- Clipboard and file operations are left out because they are I/O: `copy_translation`, `paste_from_clipboard`, `import_text_file` and `export_translation_file`.
- Widget plumbing is left out: `_build_ui`, `_apply_palette`, `set_status`, tooltips, message boxes, `_update_char_count` and `clear_text`. The same goes for the history window (`show_history`), which only lists the deque newest first.
- The contents of the googletrans language table are not visible. `LanguageValues.BuildLanguageValues` takes its sorted, distinct title-cased names as the parameter `names`. The five popular names are already title-cased, so `name.title()` leaves them unchanged.
- `Debounce` does not model the 650 ms delay itself or the timers for other purposes. It tracks which auto-translate timers are pending, not when they fire.
- The constructor stores `particle_count` as the desired count without clamping it (`Particles.NewField`). Only `set_particle_count` and `reseed` clamp.

=== FILE: debounce.dfy ===
/**
 The auto-translate debounce of `TranslatorApp`. Every keystroke cancels the
 pending auto-translate timer (if one is remembered in `typing_job`) and
 schedules a new one 650 ms later; `translate` forgets the remembered timer
 once it has dispatched a request.

 The Tk timer queue is abstracted to the set of pending auto-translate timer
 ids plus the id the next `after` call returns. Timers for other purposes
 (the particle animation, deferred callbacks) are not tracked.
 */
module Debounce {

  datatype Option<T> = None | Some(value: T)

  /** `typing_job`, the pending auto-translate timers, and the next timer id. */
  datatype Debounce = Debounce(typingJob: Option<nat>, pending: set<nat>, nextJob: nat)

  /**
   A key release or paste in the input box; the Translate button or
   Ctrl+Enter; or the Tk loop running timer `job`, which calls `translate`.
   `hasText` says whether the stripped input is non-empty at that moment.
   */
  datatype Event =
    | Keystroke
    | ManualTranslate(hasText: bool)
    | TimerFires(job: nat, hasText: bool)

  const Initial := Debounce(None, {}, 0)

  /** The timer `typing_job` remembers, as a set. */
  function Remembered(d: Debounce): set<nat> {
    match d.typingJob
    case None => {}
    case Some(j) => {j}
  }

  /** Timer ids are handed out in increasing order and never reused. */
  predicate Fresh(d: Debounce) {
    forall j :: j in d.pending ==> j < d.nextJob
  }

  /**
   The debounce invariant: every pending auto-translate timer is the one
   `typing_job` remembers, so at most one is pending.
   */
  predicate Inv(d: Debounce) {
    Fresh(d) && d.pending <= Remembered(d)
  }

  /**
   `_on_input_change`: cancel the remembered timer (a no-op if it already
   ran) and schedule a new one, remembering its id.
   */
  function OnInputChange(d: Debounce): (r: Debounce)
    ensures r.typingJob == Some(d.nextJob) && r.nextJob == d.nextJob + 1
    ensures r.pending == (d.pending - Remembered(d)) + {d.nextJob}
    ensures Fresh(d) ==> d.nextJob !in d.pending && Fresh(r)
  {
    var kept := match d.typingJob
      case None => d.pending
      case Some(j) => d.pending - {j};
    Debounce(Some(d.nextJob), kept + {d.nextJob}, d.nextJob + 1)
  }

  /**
   `translate` as written: with empty input it returns before touching
   `typing_job`; otherwise it dispatches the request and sets `typing_job`
   to None without cancelling the timer it remembered.
   */
  function TranslateAsWritten(d: Debounce, hasText: bool): (r: Debounce)
    ensures r.pending == d.pending && r.nextJob == d.nextJob
    ensures hasText ==> r.typingJob == None
    ensures !hasText ==> r == d
  {
    if !hasText then d else d.(typingJob := None)
  }

  /**
   `translate` as evidently intended: forgetting the remembered timer also
   cancels it, so no auto-translate is left pending that nothing can cancel.
   */
  function Translate(d: Debounce, hasText: bool): (r: Debounce)
    ensures r.nextJob == d.nextJob
    ensures hasText ==> r.typingJob == None && r.pending == d.pending - Remembered(d)
    ensures !hasText ==> r == d
  {
    if !hasText then d else Debounce(None, d.pending - Remembered(d), d.nextJob)
  }

  /**
   One event with `translate` as written. A timer that is not pending cannot
   fire. A manual translate forgets the remembered timer and leaves every
   pending timer in the queue.
   */
  function StepAsWritten(d: Debounce, e: Event): (r: Debounce)
    ensures Fresh(d) ==> Fresh(r)
    ensures e.Keystroke? ==>
      r.typingJob == Some(d.nextJob) && r.pending == (d.pending - Remembered(d)) + {d.nextJob}
    ensures e == ManualTranslate(true) ==> r.typingJob == None && r.pending == d.pending
    ensures e.TimerFires? && e.job in d.pending ==>
      r.pending == d.pending - {e.job} && (e.hasText ==> r.typingJob == None)
    ensures !e.Keystroke? ==> r.nextJob == d.nextJob
    ensures (e.TimerFires? && e.job !in d.pending) || e == ManualTranslate(false) ==> r == d
  {
    match e
    case Keystroke => OnInputChange(d)
    case ManualTranslate(hasText) => TranslateAsWritten(d, hasText)
    case TimerFires(job, hasText) =>
      if job in d.pending then TranslateAsWritten(d.(pending := d.pending - {job}), hasText) else d
  }

  /** One event with the corrected `translate`. */
  function Step(d: Debounce, e: Event): (r: Debounce)
    ensures Inv(d) ==> Inv(r)
  {
    match e
    case Keystroke => OnInputChange(d)
    case ManualTranslate(hasText) => Translate(d, hasText)
    case TimerFires(job, hasText) =>
      if job in d.pending then Translate(d.(pending := d.pending - {job}), hasText) else d
  }

  /** A run of events from a given state. */
  function Run(d: Debounce, es: seq<Event>): Debounce
    decreases |es|
  {
    if es == [] then d else Run(Step(d, es[0]), es[1..])
  }

  /**
   After a keystroke exactly one auto-translate is pending: the one just
   scheduled, which replaced any earlier one.
   */
  lemma KeystrokeLeavesOnePending(d: Debounce)
    requires Inv(d)
    ensures OnInputChange(d).pending == {d.nextJob}
  {
  }

  /** At start-up nothing is pending or remembered, so the invariant holds. */
  lemma InitialInv()
    ensures Inv(Initial)
  {
  }

  /**
   Any run of events from a state satisfying the invariant, such as the
   start-up state, leaves at most one auto-translate pending.
   */
  lemma {:induction false} RunKeepsAtMostOnePending(d: Debounce, es: seq<Event>)
    requires Inv(d)
    ensures Inv(Run(d, es)) && |Run(d, es).pending| <= 1
    decreases |es|
  {
    if es == [] {
      if d.typingJob.Some? && d.pending != {} {
        assert d.pending == {d.typingJob.value};
      }
    } else {
      RunKeepsAtMostOnePending(Step(d, es[0]), es[1..]);
    }
  }

  /**
   The source as written can leave two auto-translates pending: type a key,
   press Translate before the timer fires, type another key. The first timer
   was forgotten but never cancelled, so both fire.
   */
  lemma TwoPendingAsWritten()
    ensures var d1 := StepAsWritten(Initial, Keystroke);
      var d2 := StepAsWritten(d1, ManualTranslate(true));
      var d3 := StepAsWritten(d2, Keystroke);
      d3.pending == {0, 1} && !Inv(d3)
  {
  }

  /** The same three events with the corrected `translate` leave one timer pending. */
  lemma OnePendingCorrected()
    ensures var d1 := Step(Initial, Keystroke);
      var d2 := Step(d1, ManualTranslate(true));
      var d3 := Step(d2, Keystroke);
      d3.pending == {1} && Inv(d3)
  {
  }
}

=== FILE: history.dfy ===
/**
 The in-memory translation history of `TranslatorApp`: a `deque(maxlen=10)` of
 `(source preview, translation preview, detected, target)` tuples, appended by
 `_record_history` after every successful translation.
 */
module History {

  const MaxEntries := 10
  const PreviewLimit := 120
  /** The horizontal ellipsis appended to a truncated preview. */
  const Ellipsis: char := '\U{2026}'

  datatype Entry = Entry(source: string, translation: string, detected: string, target: string)

  /** `(s[:120] + "…") if len(s) > 120 else s`. */
  function Preview(s: string): (r: string)
    ensures |s| <= PreviewLimit ==> r == s
    ensures |s| > PreviewLimit ==> |r| == PreviewLimit + 1 && r[PreviewLimit] == Ellipsis
    ensures |r| <= PreviewLimit + 1
    ensures r[..if |s| > PreviewLimit then PreviewLimit else |s|] <= s
  {
    if |s| > PreviewLimit then s[..PreviewLimit] + [Ellipsis] else s
  }

  /** A preview of a preview is the same preview. */
  lemma PreviewIdempotent(s: string)
    ensures Preview(Preview(s)) == Preview(s)
  {
  }

  /** Reference definition of what the deque holds: the last `n` items of everything appended. */
  function LastN<T>(s: seq<T>, n: nat): (r: seq<T>)
    ensures |r| == if |s| <= n then |s| else n
    ensures r == s[|s| - |r|..]
  {
    if |s| <= n then s else s[|s| - n..]
  }

  /**
   `deque.append` on a deque with `maxlen=10`: the entry goes last and, when
   the deque is full, the oldest entry is evicted from the front.
   */
  function Push(h: seq<Entry>, e: Entry): (r: seq<Entry>)
    requires |h| <= MaxEntries
    ensures |r| == if |h| < MaxEntries then |h| + 1 else MaxEntries
    ensures r[|r| - 1] == e
    ensures |h| < MaxEntries ==> r == h + [e]
    ensures |h| == MaxEntries ==> r == h[1..] + [e]
  {
    if |h| == MaxEntries then
      assert (h + [e])[1..] == h[1..] + [e];
      (h + [e])[1..]
    else h + [e]
  }

  /** `_record_history`: push the truncated previews with the language labels. */
  function Record(h: seq<Entry>, source: string, translation: string,
                  detected: string, target: string): (r: seq<Entry>)
    requires |h| <= MaxEntries
    ensures |r| == if |h| < MaxEntries then |h| + 1 else MaxEntries
    ensures r[|r| - 1] == Entry(Preview(source), Preview(translation), detected, target)
    ensures r[..|r| - 1] == if |h| < MaxEntries then h else h[1..]
  {
    Push(h, Entry(Preview(source), Preview(translation), detected, target))
  }

  /** A run of appends, oldest first. */
  function PushAll(h: seq<Entry>, es: seq<Entry>): (r: seq<Entry>)
    requires |h| <= MaxEntries
    ensures |r| <= MaxEntries
    decreases |es|
  {
    if es == [] then h else PushAll(Push(h, es[0]), es[1..])
  }

  /**
   After any run of appends the history is exactly the ten newest entries of
   everything ever recorded, in recording order.
   */
  lemma {:induction false} PushAllKeepsNewest(h: seq<Entry>, es: seq<Entry>)
    requires |h| <= MaxEntries
    ensures PushAll(h, es) == LastN(h + es, MaxEntries)
    decreases |es|
  {
    if es == [] {
      assert h + es == h;
    } else {
      var h1 := Push(h, es[0]);
      calc {
        PushAll(h, es);
        PushAll(h1, es[1..]);
        { PushAllKeepsNewest(h1, es[1..]); }
        LastN(h1 + es[1..], MaxEntries);
        { PushIsLastN(h, es[0]); }
        LastN(LastN(h + [es[0]], MaxEntries) + es[1..], MaxEntries);
        { LastNAppend(h + [es[0]], es[1..], MaxEntries); }
        LastN((h + [es[0]]) + es[1..], MaxEntries);
        { assert (h + [es[0]]) + es[1..] == h + es; }
        LastN(h + es, MaxEntries);
      }
    }
  }

  /** One append keeps the newest ten of the old entries plus the new one. */
  lemma PushIsLastN(h: seq<Entry>, e: Entry)
    requires |h| <= MaxEntries
    ensures Push(h, e) == LastN(h + [e], MaxEntries)
  {
  }

  /** Keeping the last `n` before or after appending more gives the same last `n`. */
  lemma LastNAppend<T>(s: seq<T>, t: seq<T>, n: nat)
    ensures LastN(LastN(s, n) + t, n) == LastN(s + t, n)
  {
    if |s| > n {
      var k := |s| - n;
      var a := s[k..] + t;
      assert s + t == s[..k] + a;
      var m := if |a| <= n then |a| else n;
      assert LastN(s, n) == s[k..];
      assert LastN(a, n) == a[|a| - m..];
      assert LastN(s + t, n) == (s[..k] + a)[|s[..k] + a| - m..];
      SuffixOfConcat(s[..k], a, m);
    }
  }

  /** The last `m` items of `p + a` are the last `m` items of `a` when `a` has that many. */
  lemma SuffixOfConcat<T>(p: seq<T>, a: seq<T>, m: nat)
    requires m <= |a|
    ensures (p + a)[|p + a| - m..] == a[|a| - m..]
  {
  }
}

=== FILE: language_values.dfy ===
/**
 The entries of the language dropdowns (`_build_language_values`): a
 "Popular" header, the popular languages the translation library knows, an
 "All Languages" header, then every other language name in sorted order.
 The library's language table is not part of this model: its title-cased,
 sorted names are the parameter `names`.
 */
module LanguageValues {
  import LanguageSelection

  const PopularLanguages: seq<string> := ["English", "Hindi", "Spanish", "French", "German"]

  predicate Distinct(s: seq<string>) {
    forall i, j :: 0 <= i < j < |s| ==> s[i] != s[j]
  }

  /**
   Python's `<=` on strings: lexicographic by code point, a proper prefix
   coming first.
   */
  predicate Below(a: string, b: string)
    decreases |a|
  {
    if a == [] then true
    else if b == [] then false
    else if a[0] != b[0] then a[0] < b[0]
    else Below(a[1..], b[1..])
  }

  /** The order `sorted` produces: every entry is `<=` every later one. */
  predicate Sorted(s: seq<string>) {
    forall i, j :: 0 <= i < j < |s| ==> Below(s[i], s[j])
  }

  /** `[x for x in xs if x in names]`, order kept. */
  function KeepIn(xs: seq<string>, names: seq<string>): (r: seq<string>)
    ensures |r| <= |xs|
    ensures forall i :: 0 <= i < |r| ==> r[i] in xs && r[i] in names
  {
    if xs == [] then []
    else (if xs[0] in names then [xs[0]] else []) + KeepIn(xs[1..], names)
  }

  /** `[x for x in xs if x not in excluded]`, order kept. */
  function KeepOut(xs: seq<string>, excluded: seq<string>): (r: seq<string>)
    ensures |r| <= |xs|
    ensures forall i :: 0 <= i < |r| ==> r[i] in xs && r[i] !in excluded
  {
    if xs == [] then []
    else (if xs[0] in excluded then [] else [xs[0]]) + KeepOut(xs[1..], excluded)
  }

  /** When every entry is a member of `names`, the filter keeps the whole list in its order. */
  lemma {:induction false} KeepInAll(xs: seq<string>, names: seq<string>)
    requires forall i :: 0 <= i < |xs| ==> xs[i] in names
    ensures KeepIn(xs, names) == xs
  {
    if xs != [] {
      assert xs[0] in names;
      KeepInAll(xs[1..], names);
      assert [xs[0]] + xs[1..] == xs;
    }
  }

  /**
   When the language table knows all five popular names, the Popular section
   lists them in the fixed order English, Hindi, Spanish, French, German.
   */
  lemma PopularInOrder(names: seq<string>)
    requires forall p :: p in PopularLanguages ==> p in names
    ensures KeepIn(PopularLanguages, names) == PopularLanguages
  {
    KeepInAll(PopularLanguages, names);
  }

  /**
   For any language table, the Popular section lists the popular names the
   table knows in the fixed order English, Hindi, Spanish, French, German.
   */
  lemma PopularSection(names: seq<string>)
    ensures KeepIn(PopularLanguages, names) ==
      (if "English" in names then ["English"] else [])
      + ((if "Hindi" in names then ["Hindi"] else [])
      + ((if "Spanish" in names then ["Spanish"] else [])
      + ((if "French" in names then ["French"] else [])
      + (if "German" in names then ["German"] else []))))
  {
    PopularTail(names);
    assert PopularLanguages == ["English"] + ["Hindi", "Spanish", "French", "German"];
    KeepInCons("English", ["Hindi", "Spanish", "French", "German"], names);
    KeepInCons("Hindi", ["Spanish", "French", "German"], names);
  }

  /** The last three popular names, each kept exactly when the table knows it. */
  lemma PopularTail(names: seq<string>)
    ensures KeepIn(["Spanish", "French", "German"], names) ==
      (if "Spanish" in names then ["Spanish"] else [])
      + ((if "French" in names then ["French"] else [])
      + (if "German" in names then ["German"] else []))
  {
    KeepInCons("German", [], names);
    KeepInCons("French", ["German"], names);
    KeepInCons("Spanish", ["French", "German"], names);
  }

  /** One step of the popular filter: the head is kept exactly when it is a member of `names`. */
  lemma KeepInCons(x: string, xs: seq<string>, names: seq<string>)
    ensures KeepIn([x] + xs, names) == (if x in names then [x] else []) + KeepIn(xs, names)
  {
    assert ([x] + xs)[1..] == xs;
  }

  /** Keeping the members of `names` keeps every occurrence of them and nothing else. */
  lemma {:induction false} KeepInCount(xs: seq<string>, names: seq<string>, x: string)
    ensures multiset(KeepIn(xs, names))[x] == if x in names then multiset(xs)[x] else 0
  {
    if xs != [] {
      assert xs == [xs[0]] + xs[1..];
      KeepInCount(xs[1..], names, x);
    }
  }

  /** Dropping the members of `excluded` keeps every occurrence of the others and nothing else. */
  lemma {:induction false} KeepOutCount(xs: seq<string>, excluded: seq<string>, x: string)
    ensures multiset(KeepOut(xs, excluded))[x] == if x in excluded then 0 else multiset(xs)[x]
  {
    if xs != [] {
      assert xs == [xs[0]] + xs[1..];
      KeepOutCount(xs[1..], excluded, x);
    }
  }

  /**
   Filtering keeps the relative order of what it keeps: the other names of a
   sorted list come out sorted.
   */
  lemma {:induction false} KeepOutSorted(xs: seq<string>, excluded: seq<string>)
    requires Sorted(xs)
    ensures Sorted(KeepOut(xs, excluded))
  {
    if xs != [] {
      var tail := KeepOut(xs[1..], excluded);
      assert Sorted(xs[1..]) by {
        forall i, j | 0 <= i < j < |xs[1..]|
          ensures Below(xs[1..][i], xs[1..][j])
        {
          assert xs[1..][i] == xs[i + 1] && xs[1..][j] == xs[j + 1];
        }
      }
      KeepOutSorted(xs[1..], excluded);
      if xs[0] !in excluded {
        var r := [xs[0]] + tail;
        assert r == KeepOut(xs, excluded);
        forall i, j | 0 <= i < j < |r|
          ensures Below(r[i], r[j])
        {
          if i == 0 {
            var k :| 0 <= k < |xs[1..]| && xs[1..][k] == tail[j - 1];
            assert xs[k + 1] == r[j];
          } else {
            assert r[i] == tail[i - 1] && r[j] == tail[j - 1];
          }
        }
      } else {
        assert KeepOut(xs, excluded) == tail;
      }
    }
  }

  /** In a list without repetitions every member occurs exactly once. */
  lemma {:induction false} DistinctOnce(s: seq<string>, x: string)
    requires Distinct(s)
    ensures multiset(s)[x] == if x in s then 1 else 0
  {
    if s != [] {
      assert s == [s[0]] + s[1..];
      assert Distinct(s[1..]) by {
        forall i, j | 0 <= i < j < |s[1..]|
          ensures s[1..][i] != s[1..][j]
        {
          assert s[1..][i] == s[i + 1] && s[1..][j] == s[j + 1];
        }
      }
      DistinctOnce(s[1..], x);
      if x == s[0] {
        assert x !in s[1..] by {
          forall j | 0 <= j < |s[1..]|
            ensures s[1..][j] != x
          {
            assert s[1..][j] == s[j + 1];
          }
        }
      }
    }
  }

  /** The five popular names are pairwise different. */
  lemma PopularDistinct()
    ensures Distinct(PopularLanguages)
  {
  }

  /** `_build_language_values`. */
  function BuildLanguageValues(names: seq<string>): (r: seq<string>)
    ensures var popular := KeepIn(PopularLanguages, names);
      && |r| == |popular| + |KeepOut(names, popular)| + 2
      && r[0] == LanguageSelection.PopularHeader
      && r[1..|popular| + 1] == popular
      && r[|popular| + 1] == LanguageSelection.AllHeader
      && r[|popular| + 2..] == KeepOut(names, popular)
  {
    var popular := KeepIn(PopularLanguages, names);
    var others := KeepOut(names, popular);
    var r := [LanguageSelection.PopularHeader] + popular + [LanguageSelection.AllHeader] + others;
    assert r[1..|popular| + 1] == popular;
    assert r[|popular| + 2..] == others;
    r
  }

  /**
   Given the library's distinct language names, the dropdown lists every one
   of them exactly once (popular ones under the first header, the rest under
   the second) and holds nothing but the two headers and those names.
   */
  lemma EachNameOnce(names: seq<string>, n: string)
    requires Distinct(names)
    requires !LanguageSelection.IsHeader(n)
    ensures var r := BuildLanguageValues(names);
      multiset(r)[n] == if n in names then 1 else 0
  {
    var popular := KeepIn(PopularLanguages, names);
    var others := KeepOut(names, popular);
    var r := BuildLanguageValues(names);
    assert multiset(r) ==
      multiset([LanguageSelection.PopularHeader]) + multiset(popular)
      + multiset([LanguageSelection.AllHeader]) + multiset(others);
    assert multiset(r)[n] == multiset(popular)[n] + multiset(others)[n];
    PopularCount(names, n);
    DistinctOnce(names, n);
    KeepOutCount(names, popular, n);
  }

  /**
   Under the "All Languages" header the dropdown lists the remaining names in
   the sorted order of the language table.
   */
  lemma OthersSorted(names: seq<string>)
    requires Sorted(names)
    ensures var popular := KeepIn(PopularLanguages, names);
      Sorted(BuildLanguageValues(names)[|popular| + 2..])
  {
    KeepOutSorted(names, KeepIn(PopularLanguages, names));
  }

  /** A name occurs once among the popular entries if it is popular and known, else not at all. */
  lemma PopularCount(names: seq<string>, n: string)
    ensures var popular := KeepIn(PopularLanguages, names);
      && multiset(popular)[n] == (if n in names && n in PopularLanguages then 1 else 0)
      && (n in popular <==> n in names && n in PopularLanguages)
  {
    PopularDistinct();
    DistinctOnce(PopularLanguages, n);
    KeepInCount(PopularLanguages, names, n);
  }

  /** Every dropdown entry is a header or a language name. */
  lemma OnlyHeadersAndNames(names: seq<string>, v: string)
    requires v in BuildLanguageValues(names)
    ensures LanguageSelection.IsHeader(v) || v in names
  {
    var popular := KeepIn(PopularLanguages, names);
    var others := KeepOut(names, popular);
    if !LanguageSelection.IsHeader(v) {
      assert multiset(BuildLanguageValues(names)) ==
        multiset([LanguageSelection.PopularHeader]) + multiset(popular)
        + multiset([LanguageSelection.AllHeader]) + multiset(others);
      assert multiset(BuildLanguageValues(names))[v] > 0;
      KeepInCount(PopularLanguages, names, v);
      KeepOutCount(names, popular, v);
      assert multiset(popular)[v] > 0 || multiset(others)[v] > 0;
    }
  }
}

=== FILE: particles.dfy ===
/**
 The neon particle background (`ParticleCanvas` in main.py): a list of particle
 records drawn on a canvas, rebalanced to a clamped population and scattered
 over the viewport on resize.

 The canvas is abstracted to the set of item ids it currently holds plus the id
 the next `create_oval` will return. Every random draw is a caller-supplied
 stream: `spawns(k)` is what `_create_particle` draws for the k-th new particle,
 `places(k)` is the k-th `(randint(0, width), randint(0, height))` pair.
 */
module Particles {

  const MinParticles := 5
  const MaxParticles := 150
  const MinSize := 6
  const MaxSize := 50
  const NeonColors: seq<string> := ["#00f5ff", "#ff00e6", "#4dff6e", "#ff9a00", "#7a5cff"]

  /** One particle: position, velocity, size, colour and its canvas item id. */
  datatype Particle = Particle(x: real, y: real, dx: real, dy: real, size: int, color: string, id: int)

  /** The canvas: live item ids and the id the next created item receives. */
  datatype Canvas = Canvas(live: set<int>, nextId: int)

  /** The random draws of `_create_particle`. */
  datatype Spawn = Spawn(dx: real, dy: real, size: int, color: string)

  /** One random position drawn inside the viewport. */
  datatype Point = Point(x: int, y: int)

  /** The particle layer: its particles, its target population and its canvas. */
  datatype Field = Field(particles: seq<Particle>, desiredCount: int, canvas: Canvas)

  /** The ranges `_create_particle` draws from. */
  predicate ValidSpawn(s: Spawn) {
    && -1.5 <= s.dx <= 1.5
    && 0.3 <= s.dy <= 1.6
    && MinSize <= s.size <= MaxSize
    && s.color in NeonColors
  }

  predicate Within(p: Point, width: int, height: int) {
    0 <= p.x <= width && 0 <= p.y <= height
  }

  /** A particle whose top-left corner lies in the viewport [0, width] x [0, height]. */
  predicate Placed(p: Particle, width: int, height: int) {
    0.0 <= p.x <= width as real && 0.0 <= p.y <= height as real
  }

  /** The parts of a particle that never depend on its position. */
  function TraitsOf(p: Particle): Spawn {
    Spawn(p.dx, p.dy, p.size, p.color)
  }

  /** Same particle up to position: velocity, size, colour and id agree. */
  predicate SameBody(p: Particle, q: Particle) {
    TraitsOf(p) == TraitsOf(q) && p.id == q.id
  }

  function Ids(ps: seq<Particle>): set<int> {
    set p | p in ps :: p.id
  }

  predicate DistinctIds(ps: seq<Particle>) {
    forall i, j :: 0 <= i < j < |ps| ==> ps[i].id != ps[j].id
  }

  /** Every item the canvas holds was handed out before `nextId`. */
  predicate CanvasWf(c: Canvas) {
    forall id :: id in c.live ==> id < c.nextId
  }

  /**
   The invariant of the layer: the canvas holds exactly one item per particle,
   no two particles share an item, and every particle's traits are in range.
   */
  predicate Wf(f: Field) {
    && CanvasWf(f.canvas)
    && DistinctIds(f.particles)
    && Ids(f.particles) == f.canvas.live
    && forall i :: 0 <= i < |f.particles| ==> ValidSpawn(TraitsOf(f.particles[i]))
  }

  /** `max(5, min(count, 150))`. */
  function Clamp(n: int): (r: int)
    ensures MinParticles <= r <= MaxParticles
    ensures MinParticles <= n <= MaxParticles ==> r == n
    ensures n < MinParticles ==> r == MinParticles
    ensures n > MaxParticles ==> r == MaxParticles
  {
    if n > MaxParticles then MaxParticles else if n < MinParticles then MinParticles else n
  }

  /** `winfo_width() or 1`: a reported size of 0 becomes 1. */
  function ScreenExtent(v: nat): (r: nat)
    ensures r >= 1
    ensures v == 0 ==> r == 1
    ensures v != 0 ==> r == v
  {
    if v == 0 then 1 else v
  }

  /** `_create_particle`: a fresh oval at the origin carrying the drawn traits. */
  function CreateParticle(c: Canvas, s: Spawn): (r: (Particle, Canvas))
    requires ValidSpawn(s)
    ensures TraitsOf(r.0) == s && ValidSpawn(TraitsOf(r.0))
    ensures r.0.x == 0.0 && r.0.y == 0.0
    ensures CanvasWf(c) ==> r.0.id !in c.live && CanvasWf(r.1)
    ensures r.1.live == c.live + {r.0.id}
    ensures r.1.nextId == c.nextId + 1 && r.0.id == c.nextId
  {
    (Particle(0.0, 0.0, s.dx, s.dy, s.size, s.color, c.nextId), Canvas(c.live + {c.nextId}, c.nextId + 1))
  }

  lemma IdsAppend(ps: seq<Particle>, p: Particle)
    ensures Ids(ps + [p]) == Ids(ps) + {p.id}
  {
  }

  lemma IdsSingleton(p: Particle)
    ensures Ids([p]) == {p.id}
  {
  }

  lemma IdsConcat(a: seq<Particle>, b: seq<Particle>)
    ensures Ids(a + b) == Ids(a) + Ids(b)
  {
  }

  /** The particle `_create_particle` returns for item `id`, moved to `at`. */
  function Spawned(id: int, s: Spawn, at: Point): Particle {
    Particle(at.x as real, at.y as real, s.dx, s.dy, s.size, s.color, id)
  }

  /**
   The growing loop of `set_particle_count`: while fewer than `target`
   particles exist, create one, place it at the next drawn position and append
   it. `k` counts the particles created so far in this call.
   */
  function Grow(ps: seq<Particle>, c: Canvas, target: int,
                spawns: nat -> Spawn, places: nat -> Point, k: nat): (r: (seq<Particle>, Canvas))
    requires forall i: nat :: ValidSpawn(spawns(i))
    ensures |r.0| == if |ps| < target then target else |ps|
    ensures r.0[..|ps|] == ps
    ensures forall i :: |ps| <= i < |r.0| ==>
      r.0[i] == Spawned(c.nextId + (i - |ps|), spawns(k + (i - |ps|)), places(k + (i - |ps|)))
    ensures r.1.nextId == c.nextId + (|r.0| - |ps|)
    decreases target - |ps|
  {
    if |ps| >= target then
      assert ps[|ps|..] == [];
      (ps, c)
    else
      var created := CreateParticle(c, spawns(k));
      var placed := created.0.(x := places(k).x as real, y := places(k).y as real);
      var c1 := created.1;
      assert placed == Spawned(c.nextId, spawns(k), places(k));
      var r := Grow(ps + [placed], c1, target, spawns, places, k + 1);
      GrowStep(ps, placed, r.0);
      r
  }

  /** Growing adds to the canvas exactly the items of the appended particles. */
  lemma {:induction false} GrowLive(ps: seq<Particle>, c: Canvas, target: int,
                                    spawns: nat -> Spawn, places: nat -> Point, k: nat)
    requires forall i: nat :: ValidSpawn(spawns(i))
    ensures var r := Grow(ps, c, target, spawns, places, k);
      r.1.live == c.live + Ids(r.0[|ps|..])
    decreases target - |ps|
  {
    var r := Grow(ps, c, target, spawns, places, k);
    if |ps| >= target {
      assert r.0[|ps|..] == [];
    } else {
      var created := CreateParticle(c, spawns(k));
      var placed := created.0.(x := places(k).x as real, y := places(k).y as real);
      var next := Grow(ps + [placed], created.1, target, spawns, places, k + 1);
      assert r == next;
      GrowLive(ps + [placed], created.1, target, spawns, places, k + 1);
      assert next.1.live == c.live + {placed.id} + Ids(next.0[|ps| + 1..]);
      GrowStep(ps, placed, next.0);
      IdsConcat([placed], next.0[|ps| + 1..]);
      IdsSingleton(placed);
    }
  }

  /** What one appended particle means for the prefix and suffix of the final list. */
  lemma GrowStep(ps: seq<Particle>, p: Particle, r: seq<Particle>)
    requires |ps| + 1 <= |r| && r[..|ps| + 1] == ps + [p]
    ensures r[..|ps|] == ps
    ensures r[|ps|] == p
    ensures r[|ps|..] == [p] + r[|ps| + 1..]
  {
  }

  /**
   The shrinking loop of `set_particle_count`: while more than `target`
   particles remain (and the list is not empty), pop the last one and delete
   its canvas item.
   */
  function Shrink(ps: seq<Particle>, c: Canvas, target: int): (r: (seq<Particle>, Canvas))
    ensures var n := if target < 0 then 0 else if target < |ps| then target else |ps|;
      && r.0 == ps[..n]
      && r.1.live == c.live - Ids(ps[n..])
      && r.1.nextId == c.nextId
    decreases |ps|
  {
    if |ps| > target && |ps| > 0 then
      var last := ps[|ps| - 1];
      var rest := ps[..|ps| - 1];
      var r := Shrink(rest, Canvas(c.live - {last.id}, c.nextId), target);
      var n := if target < 0 then 0 else target;
      assert rest[..n] == ps[..n];
      assert ps[n..] == rest[n..] + [last];
      IdsAppend(rest[n..], last);
      r
    else
      assert ps[..|ps|] == ps;
      assert ps[|ps|..] == [];
      (ps, c)
  }

  /**
   `set_particle_count(count)`: clamp the count, record it as the desired
   count, then grow by appending or shrink by popping until the list has
   exactly that many particles. New particles are placed with
   `randint(0, winfo_width() or 1)` and `randint(0, winfo_height() or 1)`.
   */
  function SetParticleCount(f: Field, count: int, width: nat, height: nat,
                            spawns: nat -> Spawn, places: nat -> Point): (r: Field)
    requires forall i: nat :: ValidSpawn(spawns(i))
    requires forall i: nat :: Within(places(i), ScreenExtent(width), ScreenExtent(height))
    ensures r.desiredCount == Clamp(count)
    ensures |r.particles| == Clamp(count)
  {
    var n := Clamp(count);
    var (grown, c1) := Grow(f.particles, f.canvas, n, spawns, places, 0);
    var (kept, c2) := Shrink(grown, c1, n);
    Field(kept, n, c2)
  }

  /**
   Growing only appends: the old particles are an unchanged prefix, every new
   particle lies in the viewport with traits in range and a never-used item
   id, and the canvas gains exactly the new particles' items.
   */
  lemma SetParticleCountGrows(f: Field, count: int, width: nat, height: nat,
                              spawns: nat -> Spawn, places: nat -> Point)
    requires forall i: nat :: ValidSpawn(spawns(i))
    requires forall i: nat :: Within(places(i), ScreenExtent(width), ScreenExtent(height))
    requires |f.particles| <= Clamp(count)
    ensures var r := SetParticleCount(f, count, width, height, spawns, places);
      && r.particles[..|f.particles|] == f.particles
      && (forall i :: |f.particles| <= i < |r.particles| ==>
            && Placed(r.particles[i], ScreenExtent(width), ScreenExtent(height))
            && ValidSpawn(TraitsOf(r.particles[i]))
            && r.particles[i].id == f.canvas.nextId + (i - |f.particles|))
      && r.canvas.nextId == f.canvas.nextId + (|r.particles| - |f.particles|)
      && r.canvas.live == f.canvas.live + Ids(r.particles[|f.particles|..])
  {
    var n := Clamp(count);
    var (grown, c1) := Grow(f.particles, f.canvas, n, spawns, places, 0);
    GrowLive(f.particles, f.canvas, n, spawns, places, 0);
    assert grown[..|grown|] == grown;
    assert grown[|grown|..] == [];
    assert Shrink(grown, c1, n) == (grown, c1);
    forall i | |f.particles| <= i < |grown|
      ensures Placed(grown[i], ScreenExtent(width), ScreenExtent(height))
      ensures ValidSpawn(TraitsOf(grown[i]))
    {
      assert Within(places(i - |f.particles|), ScreenExtent(width), ScreenExtent(height));
      assert ValidSpawn(spawns(i - |f.particles|));
    }
  }

  /**
   Shrinking pops from the end: the result is a prefix of the old list and
   the canvas loses exactly the items of the removed particles.
   */
  lemma SetParticleCountShrinks(f: Field, count: int, width: nat, height: nat,
                                spawns: nat -> Spawn, places: nat -> Point)
    requires forall i: nat :: ValidSpawn(spawns(i))
    requires forall i: nat :: Within(places(i), ScreenExtent(width), ScreenExtent(height))
    requires |f.particles| >= Clamp(count)
    ensures var r := SetParticleCount(f, count, width, height, spawns, places);
      && r.particles == f.particles[..Clamp(count)]
      && r.canvas.live == f.canvas.live - Ids(f.particles[Clamp(count)..])
      && r.canvas.nextId == f.canvas.nextId
  {
  }

  /**
   `_scatter_particles(width, height)`: a no-op while the widget is not laid
   out (either side at most 1); otherwise every particle moves to the next
   drawn position in [0, width] x [0, height] and keeps everything else.
   */
  function Scatter(f: Field, width: int, height: int, places: nat -> Point): (r: Field)
    requires width > 1 && height > 1 ==> forall i: nat :: Within(places(i), width, height)
    ensures width <= 1 || height <= 1 ==> r == f
    ensures |r.particles| == |f.particles|
    ensures r.canvas == f.canvas && r.desiredCount == f.desiredCount
    ensures width > 1 && height > 1 ==>
      forall i :: 0 <= i < |r.particles| ==>
        Placed(r.particles[i], width, height) && SameBody(r.particles[i], f.particles[i])
  {
    if width <= 1 || height <= 1 then f
    else
      var ps := f.particles;
      var moved := seq(|ps|, i requires 0 <= i < |ps| =>
                         ps[i].(x := places(i).x as real, y := places(i).y as real));
      assert forall i :: 0 <= i < |ps| ==> moved[i].x == places(i).x as real && Within(places(i), width, height);
      f.(particles := moved)
  }

  /**
   `reseed`: scatter over `(winfo_width() or 1) x (winfo_height() or 1)`, then
   rebalance to the stored desired count.
   */
  function Reseed(f: Field, width: nat, height: nat, spawns: nat -> Spawn,
                  scatterPlaces: nat -> Point, growPlaces: nat -> Point): (r: Field)
    requires forall i: nat :: ValidSpawn(spawns(i))
    requires forall i: nat :: Within(scatterPlaces(i), ScreenExtent(width), ScreenExtent(height))
    requires forall i: nat :: Within(growPlaces(i), ScreenExtent(width), ScreenExtent(height))
    ensures r.desiredCount == Clamp(f.desiredCount)
    ensures |r.particles| == Clamp(f.desiredCount)
  {
    var scattered := Scatter(f, ScreenExtent(width), ScreenExtent(height), scatterPlaces);
    SetParticleCount(scattered, f.desiredCount, width, height, spawns, growPlaces)
  }

  /**
   `reseed` randomizes positions: when the widget has a size, every particle
   afterwards lies in the viewport, and the particles that survive the
   rebalance keep their velocity, size, colour and canvas item.
   */
  lemma ReseedRandomizes(f: Field, width: nat, height: nat, spawns: nat -> Spawn,
                         scatterPlaces: nat -> Point, growPlaces: nat -> Point)
    requires forall i: nat :: ValidSpawn(spawns(i))
    requires forall i: nat :: Within(scatterPlaces(i), ScreenExtent(width), ScreenExtent(height))
    requires forall i: nat :: Within(growPlaces(i), ScreenExtent(width), ScreenExtent(height))
    ensures var r := Reseed(f, width, height, spawns, scatterPlaces, growPlaces);
      && (ScreenExtent(width) > 1 && ScreenExtent(height) > 1 ==>
            forall i :: 0 <= i < |r.particles| ==> Placed(r.particles[i], ScreenExtent(width), ScreenExtent(height)))
      && (forall i :: 0 <= i < |r.particles| && i < |f.particles| ==> SameBody(r.particles[i], f.particles[i]))
  {
    var w, h := ScreenExtent(width), ScreenExtent(height);
    var scattered := Scatter(f, w, h, scatterPlaces);
    var r := SetParticleCount(scattered, f.desiredCount, width, height, spawns, growPlaces);
    assert r == Reseed(f, width, height, spawns, scatterPlaces, growPlaces);
    if |scattered.particles| <= Clamp(f.desiredCount) {
      SetParticleCountGrows(scattered, f.desiredCount, width, height, spawns, growPlaces);
      forall i | 0 <= i < |r.particles| && i < |f.particles|
        ensures SameBody(r.particles[i], f.particles[i])
      {
        assert r.particles[i] == scattered.particles[i];
      }
    } else {
      SetParticleCountShrinks(scattered, f.desiredCount, width, height, spawns, growPlaces);
      forall i | 0 <= i < |r.particles|
        ensures r.particles[i] == scattered.particles[i]
      {
      }
    }
  }

  /** The empty canvas a new `ParticleCanvas` starts from; Tk numbers items from 1. */
  const EmptyCanvas := Canvas({}, 1)

  /**
   The constructor: `particle_count` particles created at the origin, and the
   desired count stored as given (it is not clamped here).
   */
  function NewField(count: int, spawns: nat -> Spawn): (r: Field)
    requires forall i: nat :: ValidSpawn(spawns(i))
    ensures r.desiredCount == count
    ensures |r.particles| == if count < 0 then 0 else count
    ensures forall i :: 0 <= i < |r.particles| ==>
      r.particles[i].x == 0.0 && r.particles[i].y == 0.0 && TraitsOf(r.particles[i]) == spawns(i)
  {
    var (ps, c) := Grow([], EmptyCanvas, count, spawns, (i: nat) => Point(0, 0), 0);
    Field(ps, count, c)
  }

  /** Splitting a list with distinct item ids splits its id set into disjoint halves. */
  lemma IdsSplit(ps: seq<Particle>, n: nat)
    requires n <= |ps| && DistinctIds(ps)
    ensures Ids(ps) == Ids(ps[..n]) + Ids(ps[n..])
    ensures Ids(ps[..n]) !! Ids(ps[n..])
  {
    assert ps == ps[..n] + ps[n..];
    IdsConcat(ps[..n], ps[n..]);
  }

  /** A list of particles with distinct item ids holds as many ids as particles. */
  lemma {:induction false} IdsCard(ps: seq<Particle>)
    requires DistinctIds(ps)
    ensures |Ids(ps)| == |ps|
  {
    if ps != [] {
      var rest := ps[..|ps| - 1];
      var last := ps[|ps| - 1];
      assert DistinctIds(rest) by {
        forall i, j | 0 <= i < j < |rest|
          ensures rest[i].id != rest[j].id
        {
          assert rest[i] == ps[i] && rest[j] == ps[j];
        }
      }
      IdsCard(rest);
      IdsSplit(ps, |ps| - 1);
      assert ps[|ps| - 1..] == [last];
      IdsSingleton(last);
      assert Ids(ps) == Ids(rest) + {last.id};
      assert last.id !in Ids(rest);
    }
  }

  /** `set_particle_count` keeps one canvas item per particle, all distinct. */
  lemma SetParticleCountPreservesWf(f: Field, count: int, width: nat, height: nat,
                                    spawns: nat -> Spawn, places: nat -> Point)
    requires forall i: nat :: ValidSpawn(spawns(i))
    requires forall i: nat :: Within(places(i), ScreenExtent(width), ScreenExtent(height))
    requires Wf(f)
    ensures Wf(SetParticleCount(f, count, width, height, spawns, places))
  {
    if |f.particles| <= Clamp(count) {
      SetParticleCountGrows(f, count, width, height, spawns, places);
      GrownWf(f, SetParticleCount(f, count, width, height, spawns, places));
    } else {
      SetParticleCountShrinks(f, count, width, height, spawns, places);
      IdsSplit(f.particles, Clamp(count));
    }
  }

  /** Appending particles with consecutive never-used item ids keeps the invariant. */
  lemma GrownWf(f: Field, r: Field)
    requires Wf(f)
    requires |f.particles| <= |r.particles| && r.particles[..|f.particles|] == f.particles
    requires forall i :: |f.particles| <= i < |r.particles| ==>
      ValidSpawn(TraitsOf(r.particles[i])) && r.particles[i].id == f.canvas.nextId + (i - |f.particles|)
    requires r.canvas.nextId == f.canvas.nextId + (|r.particles| - |f.particles|)
    requires r.canvas.live == f.canvas.live + Ids(r.particles[|f.particles|..])
    ensures Wf(r)
  {
    var m := |f.particles|;
    assert r.particles == f.particles + r.particles[m..];
    IdsConcat(f.particles, r.particles[m..]);
    forall i, j | 0 <= i < j < |r.particles|
      ensures r.particles[i].id != r.particles[j].id
    {
      if j >= m && i < m {
        assert r.particles[i] == f.particles[i];
        assert r.particles[i].id in f.canvas.live;
      }
    }
    forall id | id in r.canvas.live
      ensures id < r.canvas.nextId
    {
      if id !in f.canvas.live {
        var p :| p in r.particles[m..] && p.id == id;
        var j :| 0 <= j < |r.particles| - m && r.particles[m..][j] == p;
        assert r.particles[m + j] == p;
      }
    }
    forall i | 0 <= i < |r.particles|
      ensures ValidSpawn(TraitsOf(r.particles[i]))
    {
      if i < m {
        assert r.particles[i] == f.particles[i];
      }
    }
  }

  /** Scattering moves particles but keeps their items and traits. */
  lemma ScatterPreservesWf(f: Field, width: int, height: int, places: nat -> Point)
    requires width > 1 && height > 1 ==> forall i: nat :: Within(places(i), width, height)
    requires Wf(f)
    ensures Wf(Scatter(f, width, height, places))
  {
  }

  /** `reseed` keeps the layer well formed. */
  lemma ReseedPreservesWf(f: Field, width: nat, height: nat, spawns: nat -> Spawn,
                          scatterPlaces: nat -> Point, growPlaces: nat -> Point)
    requires forall i: nat :: ValidSpawn(spawns(i))
    requires forall i: nat :: Within(scatterPlaces(i), ScreenExtent(width), ScreenExtent(height))
    requires forall i: nat :: Within(growPlaces(i), ScreenExtent(width), ScreenExtent(height))
    requires Wf(f)
    ensures Wf(Reseed(f, width, height, spawns, scatterPlaces, growPlaces))
  {
    var scattered := Scatter(f, ScreenExtent(width), ScreenExtent(height), scatterPlaces);
    ScatterPreservesWf(f, ScreenExtent(width), ScreenExtent(height), scatterPlaces);
    SetParticleCountPreservesWf(scattered, f.desiredCount, width, height, spawns, growPlaces);
  }

  /**
   A second `set_particle_count` with the same argument creates and deletes
   nothing, whatever the random draws and the window size.
   */
  lemma SetParticleCountIdempotent(f: Field, count: int, width: nat, height: nat,
                                   spawns: nat -> Spawn, places: nat -> Point,
                                   width': nat, height': nat,
                                   spawns': nat -> Spawn, places': nat -> Point)
    requires forall i: nat :: ValidSpawn(spawns(i)) && ValidSpawn(spawns'(i))
    requires forall i: nat :: Within(places(i), ScreenExtent(width), ScreenExtent(height))
    requires forall i: nat :: Within(places'(i), ScreenExtent(width'), ScreenExtent(height'))
    ensures var once := SetParticleCount(f, count, width, height, spawns, places);
      SetParticleCount(once, count, width', height', spawns', places') == once
  {
  }

  /**
   Shrinking a well-formed layer releases exactly one canvas item per removed
   particle, and keeps the items of the remaining ones.
   */
  lemma SetParticleCountReleases(f: Field, count: int, width: nat, height: nat,
                                 spawns: nat -> Spawn, places: nat -> Point)
    requires forall i: nat :: ValidSpawn(spawns(i))
    requires forall i: nat :: Within(places(i), ScreenExtent(width), ScreenExtent(height))
    requires Wf(f) && |f.particles| >= Clamp(count)
    ensures var r := SetParticleCount(f, count, width, height, spawns, places);
      && r.canvas.live <= f.canvas.live
      && |f.canvas.live - r.canvas.live| == |f.particles| - Clamp(count)
  {
    var n := Clamp(count);
    SetParticleCountShrinks(f, count, width, height, spawns, places);
    var removed := f.particles[n..];
    IdsSplit(f.particles, n);
    assert f.canvas.live - (f.canvas.live - Ids(removed)) == Ids(removed);
    assert DistinctIds(removed) by {
      forall i, j | 0 <= i < j < |removed|
        ensures removed[i].id != removed[j].id
      {
        assert removed[i] == f.particles[n + i];
        assert removed[j] == f.particles[n + j];
      }
    }
    IdsCard(removed);
  }

  /**
   Growing to 40 and then shrinking to 10 leaves 10 particles and releases
   exactly 30 canvas items.
   */
  lemma FortyThenTen(f: Field, width: nat, height: nat,
                     spawns: nat -> Spawn, places: nat -> Point)
    requires forall i: nat :: ValidSpawn(spawns(i))
    requires forall i: nat :: Within(places(i), ScreenExtent(width), ScreenExtent(height))
    requires Wf(f)
    ensures var forty := SetParticleCount(f, 40, width, height, spawns, places);
      var ten := SetParticleCount(forty, 10, width, height, spawns, places);
      |ten.particles| == 10 && |forty.canvas.live - ten.canvas.live| == 30
  {
    var forty := SetParticleCount(f, 40, width, height, spawns, places);
    SetParticleCountPreservesWf(f, 40, width, height, spawns, places);
    SetParticleCountReleases(forty, 10, width, height, spawns, places);
  }

  /** A freshly constructed layer is well formed: one new canvas item per particle. */
  lemma NewFieldWf(count: int, spawns: nat -> Spawn)
    requires forall i: nat :: ValidSpawn(spawns(i))
    ensures Wf(NewField(count, spawns))
  {
    var origin := (i: nat) => Point(0, 0);
    var empty := Field([], count, EmptyCanvas);
    var r := NewField(count, spawns);
    GrowLive([], EmptyCanvas, count, spawns, origin, 0);
    assert r.particles[0..] == r.particles;
    GrownWf(empty, r);
  }
}

=== FILE: selection.dfy ===
/**
 The source/target language dropdowns of `TranslatorApp`. The dropdown lists
 contain two non-selectable header rows; choosing one, or choosing
 "Auto Detect" as the target, is undone by restoring the side's last accepted
 choice. The swap button exchanges the two sides unless the source is
 "Auto Detect".
 */
module LanguageSelection {

  const AutoDetect := "Auto Detect"
  const PopularHeader := "\U{2014} Popular \U{2014}"
  const AllHeader := "\U{2014} All Languages \U{2014}"
  const SwapRefusal := "Cannot swap while source is Auto Detect."

  /** The two combobox variables and the last accepted choice of each side. */
  datatype Selection = Selection(source: string, target: string, sourceLast: string, targetLast: string)

  /** Which combobox fired: the source one allows "Auto Detect", the target one does not. */
  datatype Side = Source | Target

  /** The result of pressing the swap button. */
  datatype SwapOutcome = Swapped(state: Selection) | Refused(status: string)

  predicate IsHeader(v: string) {
    v == PopularHeader || v == AllHeader
  }

  /** The state the application starts in. */
  const Initial := Selection(AutoDetect, "English", AutoDetect, "English")

  function Other(side: Side): Side {
    if side == Source then Target else Source
  }

  /** The value currently shown by one side's combobox. */
  function Shown(st: Selection, side: Side): string {
    match side
    case Source => st.source
    case Target => st.target
  }

  /** The last accepted choice remembered for one side. */
  function Last(st: Selection, side: Side): string {
    match side
    case Source => st.sourceLast
    case Target => st.targetLast
  }

  /**
   `_handle_combo_selection`, run after the combobox has written the chosen
   value into its variable. A header is replaced by the side's last accepted
   choice; "Auto Detect" on the target is replaced by the target's last
   accepted choice; any other value becomes the side's last accepted choice.
   */
  function HandleComboSelection(st: Selection, side: Side): (r: Selection)
    ensures Shown(r, Other(side)) == Shown(st, Other(side)) && Last(r, Other(side)) == Last(st, Other(side))
    ensures IsHeader(Shown(st, side)) ==>
      Shown(r, side) == Last(st, side) && Last(r, side) == Last(st, side)
    ensures !IsHeader(Shown(st, side)) && side == Target && st.target == AutoDetect ==>
      r.target == st.targetLast && r.targetLast == st.targetLast
    ensures !IsHeader(Shown(st, side)) && !(side == Target && st.target == AutoDetect) ==>
      Shown(r, side) == Shown(st, side) && Last(r, side) == Shown(st, side)
  {
    var value := Shown(st, side);
    if IsHeader(value) then
      (match side
       case Source => st.(source := st.sourceLast)
       case Target => st.(target := st.targetLast))
    else if side == Target && value == AutoDetect then
      st.(target := st.targetLast)
    else
      match side
      case Source => st.(sourceLast := value)
      case Target => st.(targetLast := value)
  }

  /** The user picks `value` in one combobox: the variable is set, then the handler runs. */
  function Pick(st: Selection, side: Side, value: string): (r: Selection)
    ensures Shown(r, side) == (if IsHeader(value) || (side == Target && value == AutoDetect) then Last(st, side) else value)
    ensures Last(r, side) == (if IsHeader(value) || (side == Target && value == AutoDetect) then Last(st, side) else value)
    ensures Shown(r, Other(side)) == Shown(st, Other(side)) && Last(r, Other(side)) == Last(st, Other(side))
  {
    match side
    case Source => HandleComboSelection(st.(source := value), Source)
    case Target => HandleComboSelection(st.(target := value), Target)
  }

  /**
   What the dropdown logic maintains: neither side shows or remembers a
   header, and the target never shows or remembers "Auto Detect".
   */
  predicate Valid(st: Selection) {
    && !IsHeader(st.source) && !IsHeader(st.sourceLast)
    && !IsHeader(st.target) && !IsHeader(st.targetLast)
    && st.target != AutoDetect && st.targetLast != AutoDetect
  }

  /**
   `swap_languages`: refused with a status message while the source is
   "Auto Detect"; otherwise the two shown values are exchanged and the
   remembered choices are left alone.
   */
  function Swap(st: Selection): (r: SwapOutcome)
    ensures r.Refused? <==> st.source == AutoDetect
    ensures r.Refused? ==> r.status == SwapRefusal
    ensures r.Swapped? ==> r.state.source == st.target && r.state.target == st.source
    ensures r.Swapped? ==> r.state.sourceLast == st.sourceLast && r.state.targetLast == st.targetLast
  {
    if st.source == AutoDetect then Refused(SwapRefusal)
    else Swapped(st.(source := st.target, target := st.source))
  }

  lemma InitialValid()
    ensures Valid(Initial)
  {
  }

  /** Every pick keeps the dropdown state valid, whatever value is picked. */
  lemma PickPreservesValid(st: Selection, side: Side, value: string)
    requires Valid(st)
    ensures Valid(Pick(st, side, value))
  {
  }

  /** Swapping keeps the dropdown state valid: the target never becomes "Auto Detect". */
  lemma SwapPreservesValid(st: Selection)
    requires Valid(st)
    ensures Swap(st).Swapped? ==> Valid(Swap(st).state)
  {
  }

  /**
   Swapping twice restores the original pair. The target is never
   "Auto Detect" in a valid state, so the second swap is never refused.
   */
  lemma SwapInvolution(st: Selection)
    requires Valid(st)
    requires st.source != AutoDetect
    ensures Swap(st).Swapped? && Swap(Swap(st).state) == Swapped(st)
  {
  }
}

=== FILE: theme.dfy ===
/**
 The theme button of `TranslatorApp`: an index cycling through the two
 ttkbootstrap themes, with the dark palette for the first and the light
 palette for the second.
 */
module Theme {

  const ThemeCycle: seq<string> := ["darkly", "flatly"]

  datatype Palette = Dark | Light

  /** What one press of the theme button selects. */
  datatype ThemeChoice = ThemeChoice(index: nat, name: string, palette: Palette)

  /** `toggle_theme`: advance the index modulo the cycle length. */
  function ToggleTheme(index: nat): (r: ThemeChoice)
    ensures r.index < |ThemeCycle|
    ensures r.name == ThemeCycle[r.index]
    ensures r.palette == Dark <==> r.index == 0
    ensures index < |ThemeCycle| ==> r.index != index
  {
    var next := (index + 1) % |ThemeCycle|;
    ThemeChoice(next, ThemeCycle[next], if next == 0 then Dark else Light)
  }

  /** Two presses bring back the theme the application started from. */
  lemma ToggleTwiceRestores(index: nat)
    requires index < |ThemeCycle|
    ensures ToggleTheme(ToggleTheme(index).index).index == index
  {
  }

  /** From the start-up index 0 the presses alternate flatly, darkly, flatly, ... */
  lemma {:induction false} PressesAlternate(presses: nat)
    ensures Presses(presses) == presses % 2
  {
    if presses > 0 {
      PressesAlternate(presses - 1);
    }
  }

  /** The index after a number of presses from start-up. */
  function Presses(presses: nat): (r: nat)
    ensures r < |ThemeCycle|
  {
    if presses == 0 then 0 else ToggleTheme(Presses(presses - 1)).index
  }
}
